=== FILE: README.md ===
# Collection pages: a Dafny model

The model covers the logic of a small browser application for managing "collections". A collection is a named group with a title, a tag, a description, an owner, timestamps and an item counter. The application has two pages:

- The **dashboard** (`js/dashboard.js`) seeds two demo records into empty storage. It shows the stored list after three steps: an owner filter chosen by the active tab (`all` / `mine`), a case-insensitive search over title or tag, and one of three sort orders. It then renders either an empty state or one card per record. On the `mine` tab each card has an edit control and a delete control.
- The **editor** (`js/manage-collection.js`) looks up a record by the `id` in its query string and pre-fills the form with it. On submit it trims the fields and refuses a blank title. Otherwise it creates a record or shallow-merges the fields over the record with that id.

The model treats the stored list as a plain value, `seq<Collection>`, and writes every operation as a pure function from the old list to the new one. Reading and writing storage become the identity. Storage that is absent or malformed reads as the empty list (`Repository.Initial`). The following become parameters:

- the session user, as `Option<User>`;
- the clock reading `now`;
- every `Date.now()` reading used as a fresh id;
- the dashboard's controls.

## Layout

| file | module | contents |
|---|---|---|
| `wrappers.dfy` | `Wrappers` | `Option`, the stand-in for `null`/`undefined` |
| `text.dfy` | `Text` | `trim`, ASCII `toLowerCase`, `includes`, code-point order on titles |
| `decimal.dfy` | `Decimal` | `String(n)` for integral ids and a parser that inverts it |
| `seqs.dfy` | `Seqs` | `Array.prototype.filter`: multiset, order and length facts |
| `records.dfy` | `Records` | `User`, `Collection` |
| `repository.dfy` | `Repository` | lookup by id, upsert, delete, seeding |
| `editor.dfy` | `Editor` | page load (pre-fill) and the submit handler with its blank-title guard |
| `sorting.dfy` | `Sorting` | the three comparators and a stable sort |
| `dashboard.dfy` | `Dashboard` | `applyFilters`, `renderDashboard`, `createCollectionCard` as a view model |
| `app.dfy` | `App` | both pages as one state machine over the stored list, and its invariant |

## Modelling decisions

- **Ids and string comparison.** The editor compares ids as strings (`String(c.id) === String(id)`). The delete handler compares them as numbers (`c.id !== id`). The model keeps both comparisons. `Decimal.IntToDecimal` renders an id, and a parser reads the rendering back, so two ids render alike exactly when they are equal. A query such as `"007"` matches no record, as in the code.
- **Empty and missing fields.** An absent title, tag or description (`null`/`undefined`) is written as `""`. Every consumer in the core tests these fields for truthiness, so the two cases are indistinguishable there.
- **The upsert's `data` argument** is a `Patch` of three optional fields. `None` means the key is absent, so an update keeps the old value.
- **Sorting.** The code calls `Array.prototype.sort`, which ECMAScript requires to be stable. The model is therefore a stable insertion sort. It is proved sorted, a permutation of its input, and stable among elements the comparator ties. Records with equal timestamps (or equal titles under `az`) tie. The code's sort keeps tied records in stored order, and so does the model (`Dashboard.ApplyFiltersKeepsTieOrder`).
- **`mine` with no user logged in.** The code then applies no owner filter (`Dashboard.MineWithoutUserIsAll`). Cards still carry edit and delete controls, because `isMineView` looks only at the tab. The model keeps that behaviour.
- **Seeding reads `Date.now()` twice.** The demo ids are `firstClock` and `secondClock + 1`. They differ by exactly one only when both readings agree. They are distinct whenever the clock does not run backwards between the readings (`Repository.SeedIds`).
- **Id uniqueness.** The code does not guarantee that ids are unique, and the model does not claim it. A lookup returns the first match. A delete removes every record carrying the id.

## Model

| member | source | states |
|---|---|---|
| `Repository.GetById` | js/manage-collection.js:17-20 | Returns none exactly when no stored id renders as the query. Otherwise returns the record at the first position whose id renders as the query. |
| `Repository.FindIndex` | js/manage-collection.js:28 | `findIndex` over the string-compared id: the first matching position, or none when nothing matches. |
| `Repository.GetFirst` | js/manage-collection.js:19 | If position `i` is the first match for a query, the lookup returns the record at `i`. |
| `Repository.GetByNumericId` | js/manage-collection.js:17-20 | Looking up the rendering of a number finds a record exactly when some record carries that number. It returns the first such record. |
| `Decimal.IntToDecimal` | js/manage-collection.js:19 | `String(n)` for an integral id can be parsed back to `n`. It starts with a minus sign exactly when `n` is negative. After the sign it is one or more digits with no leading zero (the only rendering starting with `0` is `"0"`), so a padded query such as `"007"` is never the rendering of an id. |
| `Decimal.NatToDecimal` | js/manage-collection.js:19 | The rendering is all digits with no leading zero, and its digits denote `n`. |
| `Decimal.IntToDecimalInjective` | js/manage-collection.js:19 | Two ids render to the same string exactly when they are equal, so string and numeric comparison agree. |
| `Repository.Upsert` | js/manage-collection.js:22-51 | With a falsy id: appends one record and keeps all earlier records. The new record has the fresh id, the user's id or null, item count 0, created = updated = now, and the patch's fields. With a truthy id that matches: keeps the length and changes only the first matching position. That record keeps its id, owner, creation time and item count, takes each field present in the patch, and gets updated = now. With a truthy id that matches nothing: the list is unchanged. |
| `Repository.UpsertAt` | js/manage-collection.js:28-35 | Editing the first matching record is a point update of the list with the merged record. |
| `Repository.UpdateThenGet` | js/manage-collection.js:28-35 | After an edit under a query, looking up the same query returns the merged record. |
| `Repository.CreateThenGet` | js/manage-collection.js:36-47 | After creating a record under an id no other record has, looking that id up returns the new record. |
| `Repository.CreateThenDelete` | js/manage-collection.js:36-47 | Creating a record under a fresh id and then deleting that id restores the original list. |
| `Repository.UpsertTitles` | js/manage-collection.js:30-46 | When the patch has a title, every record after an upsert is either an old record or carries that title. |
| `Repository.UpsertKeepsTimesOrdered` | js/manage-collection.js:30-45 | Update times stay at or after creation times, provided the clock is not behind any stored creation time. |
| `Repository.Delete` | js/dashboard.js:138-140 | Keeps exactly the records whose id differs from the target, each with its full multiplicity, in their original relative order. The new length is the old length minus the number of records carrying the id. |
| `Repository.DeleteAbsent` | js/dashboard.js:139 | Deleting an id that no record carries leaves the list unchanged. |
| `Repository.DeleteIdempotent` | js/dashboard.js:139 | Deleting the same id twice gives the same list as deleting it once. |
| `Repository.DeleteThenGet` | js/dashboard.js:139 | After a delete, looking the id up finds nothing. |
| `Repository.Seed` | js/dashboard.js:20-51 | A non-empty list is returned unchanged. An empty list becomes exactly two records. Each has created = updated = now and the user's id (or null) as owner, and their ids come from the two clock readings. The first is "My Camera Gear" (tag "Photography", 5 items), the second "Favourite Books" (tag "Books", 8 items). Their descriptions are "Cameras and lenses I use regularly." and "Novels and non-fiction I recommend.", and neither title is blank. |
| `Repository.SeedIdempotent` | js/dashboard.js:21-22 | Seeding twice equals seeding once, whatever user and clock readings the second call sees. |
| `Repository.SeedIds` | js/dashboard.js:29-39 | The seeded ids differ by exactly one when both clock readings agree. They are distinct when the second reading is not earlier than the first. |
| `Seqs.Filter` | js/dashboard.js:139 | The result is no longer than the input. An element is in the result exactly when it is in the input and passes the predicate. |
| `Seqs.FilterMultiset` | js/dashboard.js:160 | Each passing element keeps its multiplicity, and each failing element is dropped. |
| `Seqs.FilterIsSubsequence` | js/dashboard.js:164-168 | The filtered list is a subsequence of the input, so relative order is preserved. |
| `Seqs.FilterAllPass` | js/dashboard.js:139 | When every element passes, filtering returns the input unchanged. |
| `Seqs.FilterAppend` | js/dashboard.js:139 | Filtering distributes over concatenation. |
| `Seqs.FilterFilter` | js/dashboard.js:159-169 | Filtering by one predicate and then by another equals one filter by both. |
| `Seqs.FilterComplement` | js/dashboard.js:139 | Filtering by a predicate and by its negation splits the input's length exactly. |
| `Text.Trim` | js/manage-collection.js:77-79 | The result is empty exactly when the input is all white space. Otherwise it neither starts nor ends with white space, and it is no longer than the input. |
| `Text.TrimKeepsMiddle` | js/manage-collection.js:77 | The trimmed string is a contiguous piece of the input, with only white space before and after it. |
| `Text.TrimTrimmed` | js/manage-collection.js:77-79 | Trimming a string without surrounding white space is the identity. |
| `Text.TrimIdempotent` | js/manage-collection.js:77 | Trimming twice is trimming once. |
| `Text.TrimLowerCommute` | js/dashboard.js:152 | Trimming and lower-casing commute. |
| `Text.Lower` | js/dashboard.js:152 | The result has the input's length and no ASCII capital letter. Each capital becomes its own lower-case letter (the letter at the same alphabet position), and every other character is kept. |
| `Text.Contains` | js/dashboard.js:166-167 | The empty term is contained in every string. A string contains only terms no longer than itself. |
| `Text.ContainsIffOccurs` | js/dashboard.js:166-167 | The scanning `includes` succeeds exactly when the term occurs at some position of the string. |
| `Text.LexLe` | js/dashboard.js:173 | A title sorts no later than every title it is a prefix of, and strictly before every longer title that starts with it. |
| `Text.LexLeTotal` | js/dashboard.js:173 | Any two titles are comparable in the title order. |
| `Text.LexLeTransitive` | js/dashboard.js:173 | The title order is transitive. |
| `Text.LexLeAntisymmetric` | js/dashboard.js:173 | Titles that sort both ways are equal. |
| `Sorting.Before` | js/dashboard.js:171-180 | Records with equal keys tie: equal titles under `az`, equal creation times under the two date orders. |
| `Sorting.BeforeTotal` | js/dashboard.js:171-180 | For each of the three comparators, any two records can be placed in some order. |
| `Sorting.BeforeTransitive` | js/dashboard.js:171-180 | Each comparator's "may precede" relation is transitive. |
| `Sorting.SortedCons` | js/dashboard.js:171-180 | A sorted list stays sorted when an element that may precede all of it is put in front. |
| `Sorting.Insert` | js/dashboard.js:171-180 | Inserting into a sorted list gives a sorted list with exactly one more occurrence of the element. |
| `Sorting.Sort` | js/dashboard.js:171-180 | The result is sorted by the comparator and is a permutation of the input. `Az` gives non-decreasing titles. `Oldest` gives non-decreasing creation times. `Recent` gives non-increasing creation times. |
| `Sorting.SortSorted` | js/dashboard.js:171-180 | Sorting a list that is already in order leaves it unchanged. |
| `Sorting.SortIdempotent` | js/dashboard.js:171-180 | Sorting twice is sorting once. |
| `Sorting.InsertTies` | js/dashboard.js:171 | Insertion places the new element before every element it ties with. |
| `Sorting.SortStable` | js/dashboard.js:171-180 | Records that the comparator ties keep their input order. |
| `Sorting.TiedInOrder` | js/dashboard.js:171-180 | A record that ties with a third record may precede any other record that ties with it. |
| `Dashboard.Visible` | js/dashboard.js:157-169 | The two filters together equal one filter by "passes the tab filter and the search". The survivors keep their stored relative order, and each passing record appears with its stored multiplicity. Every other record is dropped. |
| `Dashboard.SearchTerm` | js/dashboard.js:152 | The term is empty exactly when there is no search box or its text is all white space. Otherwise it is no longer than the text and holds no ASCII capital. |
| `Dashboard.OrderOf` | js/dashboard.js:153-179 | The order is `Az` exactly for the value `"az"` and `Oldest` exactly for `"oldest"`. Any other value, and a missing selector (read as `"recent"`), gives `Recent`, the comparator's most-recent fall-through. |
| `Dashboard.ApplyFilters` | js/dashboard.js:149-183 | The result is a permutation of the records that pass both filters, each kept with its stored multiplicity, sorted by the selected order. With tab `mine` and a user, every result belongs to that user. With a non-empty term, every result has a non-empty title or tag whose lower-cased form contains the term. With no active filter, the result is a permutation of the input. |
| `Dashboard.ApplyFiltersKeepsTieOrder` | js/dashboard.js:157-180 | Among the records the selected order ties, the result lists exactly the stored records that pass both filters, in stored order. |
| `Dashboard.MineWithoutUserIsAll` | js/dashboard.js:159-161 | With no user logged in, every tab gives the same result as the `all` tab. |
| `Dashboard.SearchIgnoresCase` | js/dashboard.js:152 | Lower-casing the search box's text does not change the result. |
| `Dashboard.ApplyFiltersIdempotent` | js/dashboard.js:149-183 | Running the pipeline on its own output returns the same list. |
| `Dashboard.CardFor` | js/dashboard.js:64-133 | A card shows the record's id, title, times and item count. Its tag label is never empty: the record's tag, or "No tag" when the tag is empty. It has edit and delete controls exactly when the view is `mine`. The edit control carries the id's rendering, which parses back to the id, and the delete control carries the numeric id. |
| `Dashboard.Render` | js/dashboard.js:185-206 | The empty state is shown exactly when the filtered result is empty. Otherwise there is one card per result, in result order, and each card is the one `Dashboard.CardFor` gives for that result, so it carries the result's id, title, tag label, times, item count and action payloads. Cards have edit and delete controls exactly on the `mine` tab. |
| `Dashboard.EditOpensCardRecord` | js/dashboard.js:115-117 | A card's edit control hands the editor a query that finds a stored record with the card's id. |
| `Dashboard.DeleteRemovesCardRecord` | js/dashboard.js:123-125 | A card's delete control shortens the list and removes every record with the card's id. |
| `Editor.Open` | js/manage-collection.js:64-72 | The page is in edit mode exactly when the query's id is truthy. The form holds the title, tag and description of the record the id finds, or stays blank when none is found. |
| `Editor.Submit` | js/manage-collection.js:75-88 | An alert is raised exactly when the title is all white space, and then the stored list is unchanged. Otherwise the list is the upsert of the trimmed fields under the page's id. |
| `Editor.SubmitTrimmedForm` | js/manage-collection.js:77-86 | A form whose fields are already trimmed and whose title is non-empty is passed to the upsert as it is. |
| `Editor.SubmitKeepsTitlesPresent` | js/manage-collection.js:77-86 | If every stored title is non-blank before a submit, every stored title is non-blank after it. |
| `Editor.ResubmitUnchanged` | js/manage-collection.js:64-86 | Opening a record with trimmed fields and submitting the form untouched changes only that record's update time. |
| `App.Step` | js/dashboard.js:135-142 | Handling one event: the page load is exactly `Repository.Seed`, so it fills only an empty list (with two records) and otherwise leaves the list alone. A confirmed delete is exactly `Repository.Delete` of the id, and a cancelled one leaves the list untouched. A submit with a blank title leaves the list untouched. Any submit keeps the length or adds one record. |
| `App.StepKeepsConsistent` | js/manage-collection.js:75-88 | Seeding, a delete and a submit each keep every stored title non-blank and every update time at or after its creation time, provided the clock is not behind. |
| `App.RunKeepsConsistent` | js/dashboard.js:243-248 | Any sequence of page loads, delete clicks and form submits keeps the stored list consistent. |
| `App.FromInitialStorage` | js/dashboard.js:243-248 | Starting from empty storage, any run whose clock never lags leaves only titled records, each updated no earlier than it was created. |

## Left out

- Storage and serialisation. `localStorage`, `JSON.parse`/`JSON.stringify` and the try/catch in `loadCollections` are not modelled. The stored list is a value, and unusable storage reads as `Repository.Initial`, the empty list. The two identical copies of `loadCollections`/`saveCollections` collapse into this one choice.
- Clock and id generation. `new Date().toISOString()` and `Date.now()` become integer parameters. Timestamps are milliseconds, not ISO strings.
- `Text.LexLe`: stands in for `localeCompare` as code-point lexicographic order, because locale collation depends on the host environment. The same order is what `Sorting.Before` uses for `az`.
- `Sorting.Before`: `localeCompare` is modelled as code-point lexicographic order, because locale collation depends on the host environment.
- `Sorting.Before`: the sort parses dates with `new Date(...)`. The model compares integers, and invalid dates (which give `NaN`) are not modelled.
- `Text.Lower`: only ASCII `A`–`Z` are lower-cased. The full Unicode case mapping of `toLowerCase` is not modelled.
- `Text.Contains`: characters are Unicode scalar values rather than UTF-16 code units. Only strings with surrogate pairs could behave differently.
- `Decimal.IntToDecimal`: renders integral ids only. `String(n)` for magnitudes of 10^21 and above (exponent notation) and for non-integral numbers is not modelled, because ids come from `Date.now()`.
- `formatDate` and `toLocaleString` are left out, because their output depends on the locale. Cards carry the raw timestamps.
- DOM construction, event wiring, `alert` and page navigation are left out. `confirm` becomes a boolean on the delete event (`App.DeleteClicked`), and the alert becomes a message in `Editor.SubmitOutcome`. Missing page elements are handled only where the code gives them a default: no active tab, no search box and no sort selector.
- Card item count. `itemCount || 0` is shown as the stored count, because the model's count is always a number.
- `js/auth.js`: the demo-user seeding and the visibility toggling of navigation elements are left out. The current user is an `Option<User>` parameter.
- `Editor.Open`: the form's starting values and the create-mode heading live in the page's HTML, which is not part of this model. The form is assumed to start blank.
- `Repository.Patch`: `data` in JavaScript may carry any key. The model covers the three fields the editor passes, and a patch without some of them.
- Cross-tab concurrency (last write wins) is out of scope, because the model is single-threaded.

=== FILE: app.dfy ===
/**
 * The two pages as one state machine over the stored list: loading the
 * dashboard seeds it, a confirmed delete filters it, a submitted form upserts
 * into it. Nothing else writes the list.
 */
module App {
  import opened Wrappers
  import opened Records
  import opened Text
  import opened Repository
  import opened Editor

  datatype Event =
    /** The dashboard finished loading; the clock read `now`, then `Date.now()` twice. */
    | DashboardLoaded(now: int, firstClock: int, secondClock: int)
    /** A card's delete control was clicked and the confirmation answered. */
    | DeleteClicked(id: int, confirmed: bool)
    /** The editor's form was submitted. */
    | FormSubmitted(editId: Option<string>, form: Form, now: int, freshId: int)

  /** The stored list after handling one event. */
  function Step(cs: seq<Collection>, user: Option<User>, e: Event): (r: seq<Collection>)
    ensures e.DashboardLoaded? ==> (|cs| > 0 ==> r == cs) && (|cs| == 0 ==> |r| == 2)
    ensures e.DashboardLoaded? ==> r == Seed(cs, user, e.now, e.firstClock, e.secondClock)
    ensures e.DeleteClicked? ==> forall c :: c in r <==> c in cs && !(e.confirmed && c.id == e.id)
    ensures e.DeleteClicked? ==> r == if e.confirmed then Delete(cs, e.id) else cs
    ensures e.FormSubmitted? && AllSpace(e.form.title) ==> r == cs
    ensures e.FormSubmitted? ==> |cs| <= |r| <= |cs| + 1
  {
    match e
    case DashboardLoaded(now, firstClock, secondClock) => Seed(cs, user, now, firstClock, secondClock)
    case DeleteClicked(id, confirmed) => if confirmed then Delete(cs, id) else cs
    case FormSubmitted(editId, form, now, freshId) => Submit(cs, editId, form, user, now, freshId).stored
  }

  /** The record invariants the pages maintain: titled records, updated no earlier than created. */
  predicate Consistent(cs: seq<Collection>) {
    TitlesPresent(cs) && TimesOrdered(cs)
  }

  /** The event's clock reading is not behind any stored record's creation time. */
  predicate ClockNotBehind(cs: seq<Collection>, e: Event) {
    match e
    case DashboardLoaded(_, _, _) => true
    case DeleteClicked(_, _) => true
    case FormSubmitted(_, _, now, _) => forall c :: c in cs ==> c.createdAt <= now
  }

  /** Every event keeps the stored list consistent. */
  lemma StepKeepsConsistent(cs: seq<Collection>, user: Option<User>, e: Event)
    requires Consistent(cs) && ClockNotBehind(cs, e)
    ensures Consistent(Step(cs, user, e))
  {
    match e
    case DashboardLoaded(now, firstClock, secondClock) =>
    case DeleteClicked(id, confirmed) =>
    case FormSubmitted(editId, form, now, freshId) =>
      SubmitKeepsTitlesPresent(cs, editId, form, user, now, freshId);
      if !AllSpace(form.title) {
        UpsertKeepsTimesOrdered(cs, editId, TrimmedPatch(form), user, now, freshId);
      }
  }

  /** The list a sequence of events leaves behind, starting from `cs`. */
  function Run(cs: seq<Collection>, user: Option<User>, events: seq<Event>): seq<Collection>
    decreases |events|
  {
    if |events| == 0 then cs else Run(Step(cs, user, events[0]), user, events[1..])
  }

  /** Each event's clock reading is not behind the list it meets. */
  predicate ClocksNotBehind(cs: seq<Collection>, user: Option<User>, events: seq<Event>)
    decreases |events|
  {
    |events| == 0 || (ClockNotBehind(cs, events[0]) && ClocksNotBehind(Step(cs, user, events[0]), user, events[1..]))
  }

  /**
   * Starting from empty storage, any run of the pages whose clock never lags
   * leaves only titled records, each updated no earlier than it was created.
   */
  lemma {:induction false} RunKeepsConsistent(cs: seq<Collection>, user: Option<User>, events: seq<Event>)
    requires Consistent(cs) && ClocksNotBehind(cs, user, events)
    ensures Consistent(Run(cs, user, events))
    decreases |events|
  {
    if |events| > 0 {
      StepKeepsConsistent(cs, user, events[0]);
      RunKeepsConsistent(Step(cs, user, events[0]), user, events[1..]);
    }
  }

  lemma FromInitialStorage(user: Option<User>, events: seq<Event>)
    requires ClocksNotBehind(Initial, user, events)
    ensures Consistent(Run(Initial, user, events))
  {
    RunKeepsConsistent(Initial, user, events);
  }
}

=== FILE: dashboard.dfy ===
/**
 * The dashboard's view pipeline: owner filter by tab, case-insensitive search
 * over title or tag, one of three sort orders, then the empty state or one
 * card per collection. The controls and the session user are parameters.
 */
module Dashboard {
  import opened Wrappers
  import opened Records
  import opened Text
  import opened Decimal
  import opened Seqs
  import opened Sorting
  import opened Repository

  /**
   * The dashboard's controls as the page exposes them: the active tab's name,
   * the search box's text and the sort selector's value, each `None` when the
   * element is missing.
   */
  datatype Controls = Controls(activeTab: Option<string>, searchInput: Option<string>, sortSelect: Option<string>)

  /** `getActiveTab() === "mine"`; with no active tab the page reads "all". */
  predicate IsMineView(ctl: Controls) {
    ctl.activeTab == Some("mine")
  }

  /** The search box's text, trimmed and lower-cased; empty without a search box. */
  function SearchTerm(ctl: Controls): (r: string)
    ensures r == "" <==> ctl.searchInput.None? || AllSpace(ctl.searchInput.value)
    ensures ctl.searchInput.Some? ==> |r| <= |ctl.searchInput.value|
    ensures forall k :: 0 <= k < |r| ==> !('A' <= r[k] <= 'Z')
  {
    match ctl.searchInput
    case None => ""
    case Some(v) => Lower(Trim(v))
  }

  /** The sort selector's value, "recent" without a selector; any unknown value sorts newest first. */
  function OrderOf(ctl: Controls): (r: SortOrder)
    ensures r == Az <==> ctl.sortSelect == Some("az")
    ensures r == Oldest <==> ctl.sortSelect == Some("oldest")
    ensures ctl.sortSelect.None? ==> r == Recent
  {
    var v := ctl.sortSelect.GetOr("recent");
    if v == "az" then Az else if v == "oldest" then Oldest else Recent
  }

  /** The owner the tab filter keeps: the user's id on the "mine" tab with a user logged in, else none. */
  function OwnerScope(ctl: Controls, user: Option<User>): Option<int> {
    if IsMineView(ctl) && user.Some? then Some(user.value.id) else None
  }

  function OwnedBy(uid: int): Collection -> bool {
    (c: Collection) => c.userId == Some(uid)
  }

  /** A non-empty title or tag whose lower-cased form contains the term. */
  predicate Matches(term: string, c: Collection) {
    || (c.title != "" && Contains(Lower(c.title), term))
    || (c.tag != "" && Contains(Lower(c.tag), term))
  }

  function MatchesTerm(term: string): Collection -> bool {
    (c: Collection) => Matches(term, c)
  }

  /** Whether a record survives the tab filter for `owner` and the search for `term`. */
  predicate Passes(owner: Option<int>, term: string, c: Collection) {
    && (owner.Some? ==> c.userId == owner)
    && (term != "" ==> Matches(term, c))
  }

  function PassesOf(owner: Option<int>, term: string): Collection -> bool {
    (c: Collection) => Passes(owner, term, c)
  }

  /**
   * The tab filter, then the search filter, each applied only when active: one
   * order-keeping filter by both conditions.
   */
  function Visible(cs: seq<Collection>, owner: Option<int>, term: string): (r: seq<Collection>)
    ensures r == Filter(PassesOf(owner, term), cs)
    ensures IsSubsequence(r, cs)
    ensures forall c :: multiset(r)[c] == if Passes(owner, term, c) then multiset(cs)[c] else 0
  {
    var passes := PassesOf(owner, term);
    FilterIsSubsequence(passes, cs);
    FilterMultiset(passes, cs);
    if owner.Some? && term != "" then
      FilterFilter(OwnedBy(owner.value), MatchesTerm(term), cs);
      FilterSame(Both(OwnedBy(owner.value), MatchesTerm(term)), passes, cs);
      Filter(MatchesTerm(term), Filter(OwnedBy(owner.value), cs))
    else if owner.Some? then
      FilterSame(OwnedBy(owner.value), passes, cs);
      Filter(OwnedBy(owner.value), cs)
    else if term != "" then
      FilterSame(MatchesTerm(term), passes, cs);
      Filter(MatchesTerm(term), cs)
    else
      FilterAllPass(passes, cs);
      cs
  }

  /**
   * `applyFilters`: the records that pass the tab and search filters, each as
   * often as it is stored, sorted by the selected order. The input is not changed.
   */
  function ApplyFilters(cs: seq<Collection>, ctl: Controls, user: Option<User>): (r: seq<Collection>)
    ensures forall c :: multiset(r)[c] == if Passes(OwnerScope(ctl, user), SearchTerm(ctl), c) then multiset(cs)[c] else 0
    ensures Sorted(OrderOf(ctl), r)
    ensures IsMineView(ctl) && user.Some? ==> forall c :: c in r ==> c.userId == Some(user.value.id)
    ensures SearchTerm(ctl) != "" ==> forall c :: c in r ==> Matches(SearchTerm(ctl), c)
    ensures SearchTerm(ctl) == "" && !(IsMineView(ctl) && user.Some?) ==> multiset(r) == multiset(cs)
  {
    var r := Sort(OrderOf(ctl), Visible(cs, OwnerScope(ctl, user), SearchTerm(ctl)));
    assert forall c :: c in r ==> multiset(r)[c] > 0;
    r
  }

  /**
   * Records the selected order ties keep their stored relative order: among
   * them the result is exactly the stored records that pass both filters.
   */
  lemma ApplyFiltersKeepsTieOrder(cs: seq<Collection>, ctl: Controls, user: Option<User>, k: Collection)
    ensures var tied := TiesWith(OrderOf(ctl), k);
            Filter(tied, ApplyFilters(cs, ctl, user))
            == Filter(Both(PassesOf(OwnerScope(ctl, user), SearchTerm(ctl)), tied), cs)
  {
    var order := OrderOf(ctl);
    var passes := PassesOf(OwnerScope(ctl, user), SearchTerm(ctl));
    var shown := Visible(cs, OwnerScope(ctl, user), SearchTerm(ctl));
    SortStable(order, k, shown);
    FilterFilter(passes, TiesWith(order, k), cs);
  }

  /** Without a logged-in user the "mine" tab filters exactly like the "all" tab. */
  lemma MineWithoutUserIsAll(cs: seq<Collection>, ctl: Controls, user: Option<User>)
    ensures ApplyFilters(cs, ctl, None) == ApplyFilters(cs, ctl.(activeTab := Some("all")), user)
  {
    var all := ctl.(activeTab := Some("all"));
    assert OwnerScope(ctl, None) == None == OwnerScope(all, user);
    assert SearchTerm(ctl) == SearchTerm(all) && OrderOf(ctl) == OrderOf(all);
  }

  /** Upper or lower case in the search box makes no difference. */
  lemma SearchIgnoresCase(cs: seq<Collection>, ctl: Controls, user: Option<User>, text: string)
    ensures ApplyFilters(cs, ctl.(searchInput := Some(Lower(text))), user)
            == ApplyFilters(cs, ctl.(searchInput := Some(text)), user)
  {
    var lowered := ctl.(searchInput := Some(Lower(text)));
    var typed := ctl.(searchInput := Some(text));
    assert SearchTerm(lowered) == SearchTerm(typed) by {
      TrimLowerCommute(text);
      LowerIdempotent(Trim(text));
    }
    assert OwnerScope(lowered, user) == OwnerScope(typed, user) && OrderOf(lowered) == OrderOf(typed);
  }

  /** Running the pipeline on its own output gives the same list: a re-render is stable. */
  lemma ApplyFiltersIdempotent(cs: seq<Collection>, ctl: Controls, user: Option<User>)
    ensures ApplyFilters(ApplyFilters(cs, ctl, user), ctl, user) == ApplyFilters(cs, ctl, user)
  {
    var r := ApplyFilters(cs, ctl, user);
    var owner := OwnerScope(ctl, user);
    var term := SearchTerm(ctl);
    assert forall c :: c in r ==> Passes(owner, term, c) by {
      forall c | c in r
        ensures Passes(owner, term, c)
      {
        assert multiset(r)[c] > 0;
      }
    }
    if owner.Some? {
      FilterAllPass(OwnedBy(owner.value), r);
    }
    if term != "" {
      FilterAllPass(MatchesTerm(term), r);
    }
    assert Visible(r, owner, term) == r;
    SortSorted(OrderOf(ctl), r);
  }

  /** The edit and delete controls of a card on the "mine" tab. */
  datatype CardActions = CardActions(editId: string, deleteId: int)

  /** What one card shows: the tag reads "No tag" when absent. */
  datatype Card = Card(id: int, title: string, tagLabel: string, createdAt: int, updatedAt: int,
                       itemCount: int, actions: Option<CardActions>)

  datatype Screen = EmptyState | Grid(cards: seq<Card>)

  /**
   * `createCollectionCard`: edit opens the editor with `?id=` and the id's
   * rendering; delete passes the numeric id to the delete handler.
   */
  function CardFor(c: Collection, mineView: bool): (r: Card)
    ensures r.id == c.id && r.title == c.title && r.itemCount == c.itemCount
    ensures r.createdAt == c.createdAt && r.updatedAt == c.updatedAt
    ensures r.tagLabel != "" && (c.tag != "" ==> r.tagLabel == c.tag)
    ensures c.tag == "" ==> r.tagLabel == "No tag"
    ensures mineView <==> r.actions == Some(CardActions(IntToDecimal(c.id), c.id))
    ensures !mineView ==> r.actions == None
    ensures r.actions.Some? ==> ParseInteger(r.actions.value.editId) == Some(c.id)
  {
    Card(c.id, c.title, if c.tag == "" then "No tag" else c.tag, c.createdAt, c.updatedAt, c.itemCount,
         if mineView then Some(CardActions(IntToDecimal(c.id), c.id)) else None)
  }

  /** `renderDashboard`: the empty state for an empty result, else one card per result in order. */
  function Render(cs: seq<Collection>, ctl: Controls, user: Option<User>): (v: Screen)
    ensures v.EmptyState? <==> ApplyFilters(cs, ctl, user) == []
    ensures v.Grid? ==>
              && |v.cards| == |ApplyFilters(cs, ctl, user)|
              && forall i :: 0 <= i < |v.cards| ==>
                   && v.cards[i].id == ApplyFilters(cs, ctl, user)[i].id
                   && v.cards[i].title == ApplyFilters(cs, ctl, user)[i].title
                   && v.cards[i] == CardFor(ApplyFilters(cs, ctl, user)[i], IsMineView(ctl))
                   && (v.cards[i].actions.Some? <==> IsMineView(ctl))
  {
    var shown := ApplyFilters(cs, ctl, user);
    if shown == [] then EmptyState
    else Grid(seq(|shown|, i requires 0 <= i < |shown| => CardFor(shown[i], IsMineView(ctl))))
  }

  /**
   * Every card's edit control leads the editor to a stored record with the
   * card's id: the first record carrying it.
   */
  lemma EditOpensCardRecord(cs: seq<Collection>, ctl: Controls, user: Option<User>, i: nat)
    requires IsMineView(ctl) && i < |ApplyFilters(cs, ctl, user)|
    ensures var card := Render(cs, ctl, user).cards[i];
            && GetById(cs, card.actions.value.editId).Some?
            && GetById(cs, card.actions.value.editId).value.id == card.id
  {
    var shown := ApplyFilters(cs, ctl, user);
    var card := Render(cs, ctl, user).cards[i];
    assert card == CardFor(shown[i], true);
    assert shown[i] in cs by {
      assert multiset(shown)[shown[i]] > 0;
    }
    GetByNumericId(cs, card.id);
  }

  /** Every card's delete control removes the card's record, and every other record with its id. */
  lemma DeleteRemovesCardRecord(cs: seq<Collection>, ctl: Controls, user: Option<User>, i: nat)
    requires IsMineView(ctl) && i < |ApplyFilters(cs, ctl, user)|
    ensures var card := Render(cs, ctl, user).cards[i];
            && |Delete(cs, card.actions.value.deleteId)| < |cs|
            && forall c :: c in Delete(cs, card.actions.value.deleteId) ==> c.id != card.id
  {
    var shown := ApplyFilters(cs, ctl, user);
    var card := Render(cs, ctl, user).cards[i];
    assert card == CardFor(shown[i], true);
    assert shown[i] in cs by {
      assert multiset(shown)[shown[i]] > 0;
    }
    FilterMultiset(WithId(card.id), cs);
    assert multiset(Filter(WithId(card.id), cs))[shown[i]] > 0;
  }
}

=== FILE: decimal.dfy ===
/**
 * `String(n)` for the integral numbers used as collection ids, and the parser
 * that reads such a string back. Ids are looked up by comparing these
 * renderings, so the round trip is what makes string comparison agree with
 * numeric comparison.
 */
module Decimal {
  import opened Wrappers

  predicate IsDigit(c: char) {
    '0' <= c <= '9'
  }

  predicate AllDigits(s: string) {
    forall k :: 0 <= k < |s| ==> IsDigit(s[k])
  }

  function Digit(d: nat): char
    requires d < 10
  {
    ('0' as int + d) as char
  }

  /** The number a string of decimal digits denotes (leading zeros allowed). */
  function DigitsValue(s: string): nat
    requires AllDigits(s)
  {
    if |s| == 0 then 0 else 10 * DigitsValue(s[..|s| - 1]) + (s[|s| - 1] as int - '0' as int)
  }

  /** Reads an optional minus sign followed by at least one decimal digit. */
  function ParseInteger(s: string): Option<int> {
    if |s| > 0 && s[0] == '-' && |s[1..]| > 0 && AllDigits(s[1..]) then
      var magnitude: int := DigitsValue(s[1..]);
      Some(-magnitude)
    else if |s| > 0 && AllDigits(s) then Some(DigitsValue(s))
    else None
  }

  /** Shortest decimal rendering of a natural number: digits only, no leading zero. */
  function NatToDecimal(n: nat): (r: string)
    ensures |r| >= 1 && AllDigits(r)
    ensures DigitsValue(r) == n
    ensures r[0] == '0' ==> r == "0"
  {
    if n < 10 then [Digit(n)]
    else
      var prefix := NatToDecimal(n / 10);
      assert (prefix + [Digit(n % 10)])[..|prefix|] == prefix;
      prefix + [Digit(n % 10)]
  }

  /** `String(n)` for an integral Number: a minus sign for negatives, then the digits. */
  function IntToDecimal(n: int): (r: string)
    ensures ParseInteger(r) == Some(n)
    ensures r != [] && (r[0] == '-' <==> n < 0)
    ensures var digits := if n < 0 then r[1..] else r;
            |digits| >= 1 && AllDigits(digits) && (digits[0] == '0' ==> digits == "0")
  {
    if n < 0 then
      var digits := NatToDecimal(-n);
      assert ("-" + digits)[1..] == digits;
      "-" + digits
    else NatToDecimal(n)
  }

  /** Two ids render to the same string exactly when they are the same number. */
  lemma IntToDecimalInjective(a: int, b: int)
    ensures IntToDecimal(a) == IntToDecimal(b) <==> a == b
  {
    if IntToDecimal(a) == IntToDecimal(b) {
      assert Some(a) == ParseInteger(IntToDecimal(a)) == Some(b);
    }
  }
}

=== FILE: editor.dfy ===
/**
 * The collection editor page: opening it pre-fills the form from the record the
 * query's `id` names, and submitting it trims the three fields, refuses a blank
 * title, and otherwise hands them to `upsertCollection`.
 */
module Editor {
  import opened Wrappers
  import opened Records
  import opened Text
  import opened Repository

  datatype Form = Form(title: string, tag: string, description: string)

  /** What the page shows after loading: the "Edit Collection" heading or not, and the form. */
  datatype Page = Page(editing: bool, form: Form)

  /** The form's state before anything is typed. */
  const BlankForm := Form("", "", "")

  const TitleRequired := "Title is required."

  /** The stored list after a submit, and the alert the user saw, if any. */
  datatype SubmitOutcome = SubmitOutcome(stored: seq<Collection>, alert: Option<string>)

  /**
   * Page load: a truthy `id` switches the heading to editing and copies the
   * fields of the record it names; an id that names nothing leaves the form blank.
   */
  function Open(cs: seq<Collection>, editId: Option<string>): (p: Page)
    ensures p.editing <==> Truthy(editId)
    ensures Truthy(editId) && GetById(cs, editId.value).Some? ==>
              var c := GetById(cs, editId.value).value;
              p.form == Form(c.title, c.tag, c.description)
    ensures !(Truthy(editId) && GetById(cs, editId.value).Some?) ==> p.form == BlankForm
  {
    if Truthy(editId) then
      match GetById(cs, editId.value)
      case Some(c) => Page(true, Form(c.title, c.tag, c.description))
      case None => Page(true, BlankForm)
    else Page(false, BlankForm)
  }

  /** The fields exactly as the submit handler passes them to the repository. */
  function TrimmedPatch(form: Form): Patch {
    Patch(Some(Trim(form.title)), Some(Trim(form.tag)), Some(Trim(form.description)))
  }

  /** The submit handler: alert and keep the list when the trimmed title is empty, else upsert. */
  function Submit(cs: seq<Collection>, editId: Option<string>, form: Form,
                  user: Option<User>, now: int, freshId: int): (r: SubmitOutcome)
    ensures r.alert.Some? <==> AllSpace(form.title)
    ensures r.alert.Some? ==> r.alert.value == TitleRequired && r.stored == cs
    ensures r.alert.None? ==> r.stored == Upsert(cs, editId, TrimmedPatch(form), user, now, freshId)
  {
    if Trim(form.title) == [] then SubmitOutcome(cs, Some(TitleRequired))
    else SubmitOutcome(Upsert(cs, editId, TrimmedPatch(form), user, now, freshId), None)
  }

  /** Every stored title has something left after trimming. */
  predicate TitlesPresent(cs: seq<Collection>) {
    forall c :: c in cs ==> !AllSpace(c.title)
  }

  /**
   * Submitting the form never stores a blank title: the guard at the submit
   * boundary keeps a list of titled records titled.
   */
  lemma SubmitKeepsTitlesPresent(cs: seq<Collection>, editId: Option<string>, form: Form,
                                 user: Option<User>, now: int, freshId: int)
    requires TitlesPresent(cs)
    ensures TitlesPresent(Submit(cs, editId, form, user, now, freshId).stored)
  {
    if !AllSpace(form.title) {
      var title := Trim(form.title);
      assert !IsSpace(title[0]);
      UpsertTitles(cs, editId, TrimmedPatch(form), user, now, freshId);
    }
  }

  /** A form whose fields are already trimmed and whose title is non-empty is passed on as it is. */
  lemma SubmitTrimmedForm(cs: seq<Collection>, editId: Option<string>, form: Form,
                          user: Option<User>, now: int, freshId: int)
    requires IsTrimmed(form.title) && IsTrimmed(form.tag) && IsTrimmed(form.description)
    requires form.title != ""
    ensures Submit(cs, editId, form, user, now, freshId)
            == SubmitOutcome(Upsert(cs, editId, Patch(Some(form.title), Some(form.tag), Some(form.description)),
                                    user, now, freshId), None)
  {
    TrimTrimmed(form.title);
    TrimTrimmed(form.tag);
    TrimTrimmed(form.description);
  }

  /**
   * Opening a record whose fields are already trimmed and submitting the form
   * untouched rewrites nothing but the record's update time.
   */
  lemma ResubmitUnchanged(cs: seq<Collection>, q: string, i: nat,
                          user: Option<User>, now: int, freshId: int)
    requires q != "" && FirstMatch(cs, q, i)
    requires IsTrimmed(cs[i].title) && IsTrimmed(cs[i].tag) && IsTrimmed(cs[i].description)
    requires cs[i].title != ""
    ensures var out := Submit(cs, Some(q), Open(cs, Some(q)).form, user, now, freshId);
            out.alert.None? && out.stored == cs[i := cs[i].(updatedAt := now)]
  {
    var c := cs[i];
    GetFirst(cs, q, i);
    var form := Form(c.title, c.tag, c.description);
    assert Open(cs, Some(q)).form == form;
    var patch := Patch(Some(c.title), Some(c.tag), Some(c.description));
    SubmitTrimmedForm(cs, Some(q), form, user, now, freshId);
    UpsertAt(cs, q, i, patch, user, now, freshId);
    assert Merge(c, patch, now) == c.(updatedAt := now);
  }
}

=== FILE: records.dfy ===
/** The entities of the collection pages: the session user and the collection record. */
module Records {
  import opened Wrappers

  /** The session record the mock authentication layer keeps. */
  datatype User = User(id: int, username: string)

  /**
   * One stored collection. Timestamps are milliseconds since the epoch; an empty
   * `title`, `tag` or `description` stands for a missing (`null`/`undefined`) one,
   * which every consumer treats exactly like the empty string.
   */
  datatype Collection = Collection(
    id: int,
    userId: Option<int>,
    title: string,
    tag: string,
    description: string,
    createdAt: int,
    updatedAt: int,
    itemCount: int)

  /** The owner stamped on a new record: `user ? user.id : null`. */
  function OwnerOf(user: Option<User>): Option<int> {
    match user
    case Some(u) => Some(u.id)
    case None => None
  }
}

=== FILE: repository.dfy ===
/**
 * The collection repository: the stored list is a `seq<Collection>` value and
 * every operation maps the old list to the new one. Reading and writing the
 * browser's storage is the identity here; storage that is missing or does not
 * parse to an array reads as `Initial`.
 */
module Repository {
  import opened Wrappers
  import opened Records
  import opened Decimal
  import opened Seqs
  import opened Text

  /** What `loadCollections` yields for absent or malformed storage. */
  const Initial: seq<Collection> := []

  /** `String(c.id) === String(q)`, for a query that is already a string. */
  predicate IdMatches(c: Collection, q: string) {
    IntToDecimal(c.id) == q
  }

  /** `i` is the first position whose record matches the query. */
  predicate FirstMatch(cs: seq<Collection>, q: string, i: int) {
    0 <= i < |cs| && IdMatches(cs[i], q) && forall j :: 0 <= j < i ==> !IdMatches(cs[j], q)
  }

  predicate NoMatch(cs: seq<Collection>, q: string) {
    forall j :: 0 <= j < |cs| ==> !IdMatches(cs[j], q)
  }

  /** `findIndex`, with `None` for the source's `-1`. */
  function FindIndex(cs: seq<Collection>, q: string): (r: Option<nat>)
    ensures r.Some? ==> FirstMatch(cs, q, r.value)
    ensures r.None? ==> NoMatch(cs, q)
  {
    if |cs| == 0 then None
    else if IdMatches(cs[0], q) then Some(0)
    else
      match FindIndex(cs[1..], q)
      case None =>
        NoMatchShift(cs, q);
        None
      case Some(i) =>
        FirstMatchShift(cs, q, i);
        Some(i + 1)
  }

  /** A first match in the tail, behind a head that does not match, is a first match one further on. */
  lemma FirstMatchShift(cs: seq<Collection>, q: string, i: nat)
    requires |cs| > 0 && !IdMatches(cs[0], q) && FirstMatch(cs[1..], q, i)
    ensures FirstMatch(cs, q, i + 1)
  {
    assert forall j :: 1 <= j <= i + 1 ==> cs[j] == cs[1..][j - 1];
  }

  /** No match in the tail, behind a head that does not match, is no match at all. */
  lemma NoMatchShift(cs: seq<Collection>, q: string)
    requires |cs| > 0 && !IdMatches(cs[0], q) && NoMatch(cs[1..], q)
    ensures NoMatch(cs, q)
  {
    assert forall j :: 1 <= j < |cs| ==> cs[j] == cs[1..][j - 1];
  }

  /** `getCollectionById`: the first record whose id renders as the query, if any. */
  function GetById(cs: seq<Collection>, q: string): (r: Option<Collection>)
    ensures r.None? <==> NoMatch(cs, q)
    ensures r.Some? ==> exists i :: FirstMatch(cs, q, i) && cs[i] == r.value
  {
    match FindIndex(cs, q)
    case None => None
    case Some(i) => Some(cs[i])
  }

  lemma GetFirst(cs: seq<Collection>, q: string, i: nat)
    requires FirstMatch(cs, q, i)
    ensures GetById(cs, q) == Some(cs[i])
  {
    assert IdMatches(cs[i], q);
    assert GetById(cs, q).Some?;
    var k :| FirstMatch(cs, q, k) && cs[k] == GetById(cs, q).value;
    assert 0 <= k < |cs|;
    assert k == i;
  }

  /** Looking up the rendering of a number finds the first record carrying that number as its id. */
  lemma GetByNumericId(cs: seq<Collection>, id: int)
    ensures GetById(cs, IntToDecimal(id)).None? <==> forall c :: c in cs ==> c.id != id
    ensures GetById(cs, IntToDecimal(id)).Some? ==>
              exists i :: 0 <= i < |cs| && cs[i] == GetById(cs, IntToDecimal(id)).value
                          && cs[i].id == id && forall j :: 0 <= j < i ==> cs[j].id != id
  {
    forall c | c in cs
      ensures IdMatches(c, IntToDecimal(id)) <==> c.id == id
    {
      IntToDecimalInjective(c.id, id);
    }
  }

  /**
   * The `data` argument of `upsertCollection`: each field is `None` when the
   * object does not carry that key.
   */
  datatype Patch = Patch(title: Option<string>, tag: Option<string>, description: Option<string>)

  /** JavaScript truthiness of the optional id taken from the page's query string. */
  predicate Truthy(existingId: Option<string>) {
    existingId.Some? && existingId.value != ""
  }

  /** `{...c, ...data, updatedAt: now}` */
  function Merge(c: Collection, data: Patch, now: int): Collection {
    c.(title := data.title.GetOr(c.title),
       tag := data.tag.GetOr(c.tag),
       description := data.description.GetOr(c.description),
       updatedAt := now)
  }

  /** The record `upsertCollection` appends when it is not editing. */
  function NewRecord(id: int, user: Option<User>, data: Patch, now: int): Collection {
    Collection(id, OwnerOf(user), data.title.GetOr(""), data.tag.GetOr(""),
               data.description.GetOr(""), now, now, 0)
  }

  /** `updated` is `prior` with the patch's fields laid over it and a refreshed update time. */
  predicate MergedFrom(updated: Collection, prior: Collection, data: Patch, now: int) {
    && updated.id == prior.id
    && updated.userId == prior.userId
    && updated.createdAt == prior.createdAt
    && updated.itemCount == prior.itemCount
    && updated.updatedAt == now
    && updated.title == (if data.title.Some? then data.title.value else prior.title)
    && updated.tag == (if data.tag.Some? then data.tag.value else prior.tag)
    && updated.description == (if data.description.Some? then data.description.value else prior.description)
  }

  /**
   * `upsertCollection(existingId, data)`: with a truthy id, rewrite the first
   * record it names (or nothing, if it names none); otherwise append a new record.
   * `now` is the clock reading and `freshId` the `Date.now()` reading.
   */
  function Upsert(cs: seq<Collection>, existingId: Option<string>, data: Patch,
                  user: Option<User>, now: int, freshId: int): (r: seq<Collection>)
    ensures !Truthy(existingId) ==>
              && |r| == |cs| + 1
              && r[..|cs|] == cs
              && r[|cs|].id == freshId
              && r[|cs|].userId == OwnerOf(user)
              && r[|cs|].itemCount == 0
              && r[|cs|].createdAt == now && r[|cs|].updatedAt == now
              && r[|cs|].title == data.title.GetOr("")
              && r[|cs|].tag == data.tag.GetOr("")
              && r[|cs|].description == data.description.GetOr("")
    ensures Truthy(existingId) ==>
              forall i :: FirstMatch(cs, existingId.value, i) ==>
                && |r| == |cs|
                && MergedFrom(r[i], cs[i], data, now)
                && forall j :: 0 <= j < |cs| && j != i ==> r[j] == cs[j]
    ensures Truthy(existingId) && NoMatch(cs, existingId.value) ==> r == cs
  {
    if Truthy(existingId) then
      match FindIndex(cs, existingId.value)
      case Some(i) =>
        assert forall k :: FirstMatch(cs, existingId.value, k) ==> k == i;
        cs[i := Merge(cs[i], data, now)]
      case None => cs
    else
      cs + [NewRecord(freshId, user, data, now)]
  }

  /** An edit of the first matching record is a point update of the list. */
  lemma UpsertAt(cs: seq<Collection>, q: string, i: nat, data: Patch,
                 user: Option<User>, now: int, freshId: int)
    requires q != "" && FirstMatch(cs, q, i)
    ensures Upsert(cs, Some(q), data, user, now, freshId) == cs[i := Merge(cs[i], data, now)]
  {
    var k := FindIndex(cs, q).value;
    assert FirstMatch(cs, q, k);
    assert k == i;
  }

  /** With a title in the patch, every record after an upsert is an old one or carries that title. */
  lemma UpsertTitles(cs: seq<Collection>, existingId: Option<string>, data: Patch,
                     user: Option<User>, now: int, freshId: int)
    requires data.title.Some?
    ensures forall c :: c in Upsert(cs, existingId, data, user, now, freshId) ==>
              c in cs || c.title == data.title.value
  {
    var r := Upsert(cs, existingId, data, user, now, freshId);
    forall c | c in r
      ensures c in cs || c.title == data.title.value
    {
      var k :| 0 <= k < |r| && r[k] == c;
      if Truthy(existingId) {
        match FindIndex(cs, existingId.value)
        case Some(i) =>
          if k != i {
            assert c == cs[k];
          }
        case None =>
      } else if k < |cs| {
        assert r[..|cs|][k] == c;
      }
    }
  }

  /** No record was updated before it was created. */
  predicate TimesOrdered(cs: seq<Collection>) {
    forall c :: c in cs ==> c.createdAt <= c.updatedAt
  }

  /** An upsert keeps update times at or after creation times, as long as the clock is not behind any record. */
  lemma UpsertKeepsTimesOrdered(cs: seq<Collection>, existingId: Option<string>, data: Patch,
                                user: Option<User>, now: int, freshId: int)
    requires TimesOrdered(cs)
    requires forall c :: c in cs ==> c.createdAt <= now
    ensures TimesOrdered(Upsert(cs, existingId, data, user, now, freshId))
  {
    var r := Upsert(cs, existingId, data, user, now, freshId);
    forall c | c in r
      ensures c.createdAt <= c.updatedAt
    {
      var k :| 0 <= k < |r| && r[k] == c;
      if Truthy(existingId) {
        match FindIndex(cs, existingId.value)
        case Some(i) =>
          if k == i {
            assert cs[i] in cs;
          } else {
            assert c == cs[k] && cs[k] in cs;
          }
        case None =>
      } else if k < |cs| {
        assert r[..|cs|][k] == c;
      }
    }
  }

  /** Editing a record and then looking it up under the same query returns the edited record. */
  lemma UpdateThenGet(cs: seq<Collection>, q: string, i: nat, data: Patch,
                      user: Option<User>, now: int, freshId: int)
    requires q != "" && FirstMatch(cs, q, i)
    ensures GetById(Upsert(cs, Some(q), data, user, now, freshId), q) == Some(Merge(cs[i], data, now))
  {
    var r := Upsert(cs, Some(q), data, user, now, freshId);
    assert FirstMatch(r, q, i);
    var found := GetById(r, q);
    var k :| FirstMatch(r, q, k) && r[k] == found.value;
    assert k == i;
  }

  /** A record created under an id no other record has is found again by that id. */
  lemma CreateThenGet(cs: seq<Collection>, existingId: Option<string>, data: Patch,
                      user: Option<User>, now: int, freshId: int)
    requires !Truthy(existingId)
    requires forall c :: c in cs ==> c.id != freshId
    ensures GetById(Upsert(cs, existingId, data, user, now, freshId), IntToDecimal(freshId))
            == Some(NewRecord(freshId, user, data, now))
  {
    var r := Upsert(cs, existingId, data, user, now, freshId);
    GetByNumericId(r, freshId);
    var found := GetById(r, IntToDecimal(freshId));
    assert r[|cs|].id == freshId;
    forall k | 0 <= k < |cs|
      ensures r[k].id != freshId
    {
      assert r[k] == cs[k] && cs[k] in cs;
    }
    var i :| 0 <= i < |r| && r[i] == found.value && r[i].id == freshId;
    assert i == |cs|;
  }

  function WithId(id: int): Collection -> bool {
    (c: Collection) => c.id == id
  }

  function OtherThan(id: int): Collection -> bool {
    (c: Collection) => c.id != id
  }

  /** How many stored records carry the id. */
  function CountId(cs: seq<Collection>, id: int): nat {
    |Filter(WithId(id), cs)|
  }

  /**
   * The filter in `handleDeleteCollection`: keep the records whose id differs
   * from the target, by numeric comparison.
   */
  function Delete(cs: seq<Collection>, id: int): (r: seq<Collection>)
    ensures forall c :: c in r <==> c in cs && c.id != id
    ensures forall c :: multiset(r)[c] == if c.id == id then 0 else multiset(cs)[c]
    ensures IsSubsequence(r, cs)
    ensures |r| + CountId(cs, id) == |cs|
  {
    FilterMultiset(OtherThan(id), cs);
    FilterIsSubsequence(OtherThan(id), cs);
    FilterComplement(OtherThan(id), WithId(id), cs);
    Filter(OtherThan(id), cs)
  }

  /** Deleting an id nobody carries leaves the list as it was. */
  lemma DeleteAbsent(cs: seq<Collection>, id: int)
    requires forall c :: c in cs ==> c.id != id
    ensures Delete(cs, id) == cs
  {
    FilterAllPass(OtherThan(id), cs);
  }

  lemma DeleteIdempotent(cs: seq<Collection>, id: int)
    ensures Delete(Delete(cs, id), id) == Delete(cs, id)
  {
    DeleteAbsent(Delete(cs, id), id);
  }

  /** After a delete, looking the id up finds nothing. */
  lemma DeleteThenGet(cs: seq<Collection>, id: int)
    ensures GetById(Delete(cs, id), IntToDecimal(id)) == None
  {
    GetByNumericId(Delete(cs, id), id);
  }

  /** Creating a record under a fresh id and deleting that id restores the list. */
  lemma CreateThenDelete(cs: seq<Collection>, existingId: Option<string>, data: Patch,
                         user: Option<User>, now: int, freshId: int)
    requires !Truthy(existingId)
    requires forall c :: c in cs ==> c.id != freshId
    ensures Delete(Upsert(cs, existingId, data, user, now, freshId), freshId) == cs
  {
    var r := Upsert(cs, existingId, data, user, now, freshId);
    assert r == cs + [NewRecord(freshId, user, data, now)];
    FilterAppend(OtherThan(freshId), cs, [NewRecord(freshId, user, data, now)]);
    FilterAllPass(OtherThan(freshId), cs);
  }

  /** The two records `seedDemoCollections` writes; the ids come from two `Date.now()` readings. */
  function DemoRecords(user: Option<User>, now: int, firstClock: int, secondClock: int): seq<Collection> {
    [ Collection(firstClock, OwnerOf(user), "My Camera Gear", "Photography",
                 "Cameras and lenses I use regularly.", now, now, 5),
      Collection(secondClock + 1, OwnerOf(user), "Favourite Books", "Books",
                 "Novels and non-fiction I recommend.", now, now, 8) ]
  }

  /** `seedDemoCollections`: write the demo records, but only into an empty list. */
  function Seed(cs: seq<Collection>, user: Option<User>, now: int, firstClock: int, secondClock: int)
    : (r: seq<Collection>)
    ensures |cs| > 0 ==> r == cs
    ensures |cs| == 0 ==>
              && |r| == 2
              && (forall i :: 0 <= i < 2 ==> r[i].createdAt == now == r[i].updatedAt && r[i].userId == OwnerOf(user))
              && r[0].id == firstClock && r[1].id == secondClock + 1
              && r[0].title == "My Camera Gear" && r[0].tag == "Photography" && r[0].itemCount == 5
              && r[1].title == "Favourite Books" && r[1].tag == "Books" && r[1].itemCount == 8
              && r[0].description == "Cameras and lenses I use regularly."
              && r[1].description == "Novels and non-fiction I recommend."
              && (forall i :: 0 <= i < 2 ==> !AllSpace(r[i].title))
  {
    if |cs| > 0 then cs
    else
      var demo := DemoRecords(user, now, firstClock, secondClock);
      assert !IsSpace(demo[0].title[0]) && !IsSpace(demo[1].title[0]);
      demo
  }

  /** Seeding twice is seeding once, whatever the second call's clock and user. */
  lemma SeedIdempotent(cs: seq<Collection>, user: Option<User>, now: int, firstClock: int, secondClock: int,
                       user': Option<User>, now': int, firstClock': int, secondClock': int)
    ensures Seed(Seed(cs, user, now, firstClock, secondClock), user', now', firstClock', secondClock')
            == Seed(cs, user, now, firstClock, secondClock)
  {
  }

  /**
   * The seeded ids differ by exactly one when both clock readings agree, and are
   * distinct whenever the clock does not run backwards between them.
   */
  lemma SeedIds(user: Option<User>, now: int, firstClock: int, secondClock: int)
    ensures var r := Seed([], user, now, firstClock, secondClock);
            && (firstClock == secondClock ==> r[1].id == r[0].id + 1)
            && (firstClock <= secondClock ==> r[0].id != r[1].id)
  {
  }
}

=== FILE: seqs.dfy ===
/** Order-preserving filtering of sequences, the model of `Array.prototype.filter`. */
module Seqs {

  /** `a` can be obtained from `b` by deleting elements (greedy left-to-right matching). */
  predicate IsSubsequence<T(==,!new)>(a: seq<T>, b: seq<T>)
    decreases |b|
  {
    if |a| == 0 then true
    else if |b| == 0 then false
    else if a[0] == b[0] then IsSubsequence(a[1..], b[1..])
    else IsSubsequence(a, b[1..])
  }

  /** The elements of `s` that satisfy `p`, in their original order. */
  function Filter<T(==,!new)>(p: T -> bool, s: seq<T>): (r: seq<T>)
    ensures |r| <= |s|
    ensures forall x :: x in r <==> x in s && p(x)
  {
    if |s| == 0 then []
    else
      assert s == [s[0]] + s[1..];
      var rest := Filter(p, s[1..]);
      if p(s[0]) then [s[0]] + rest else rest
  }

  /** Filtering keeps the surviving elements in their original relative order. */
  lemma {:induction false} FilterIsSubsequence<T(!new)>(p: T -> bool, s: seq<T>)
    ensures IsSubsequence(Filter(p, s), s)
  {
    if |s| > 0 {
      var rest := Filter(p, s[1..]);
      FilterIsSubsequence(p, s[1..]);
      if p(s[0]) {
        assert ([s[0]] + rest)[1..] == rest;
      } else {
        assert rest != [] ==> rest[0] in rest && rest[0] != s[0];
      }
    }
  }

  /** Filtering keeps every passing element with its multiplicity and drops every other. */
  lemma {:induction false} FilterMultiset<T(!new)>(p: T -> bool, s: seq<T>)
    ensures forall x :: multiset(Filter(p, s))[x] == if p(x) then multiset(s)[x] else 0
  {
    if |s| > 0 {
      FilterMultiset(p, s[1..]);
      assert s == [s[0]] + s[1..];
    }
  }

  /** Filtering keeps everything when everything passes. */
  lemma {:induction false} FilterAllPass<T(!new)>(p: T -> bool, s: seq<T>)
    requires forall x :: x in s ==> p(x)
    ensures Filter(p, s) == s
  {
    if |s| > 0 {
      FilterAllPass(p, s[1..]);
      assert s == [s[0]] + s[1..];
    }
  }

  lemma {:induction false} FilterAppend<T(!new)>(p: T -> bool, a: seq<T>, b: seq<T>)
    ensures Filter(p, a + b) == Filter(p, a) + Filter(p, b)
  {
    if |a| == 0 {
      assert a + b == b;
    } else {
      var ab := a + b;
      assert ab[0] == a[0] && ab[1..] == a[1..] + b;
      FilterAppend(p, a[1..], b);
      if p(a[0]) {
        assert Filter(p, ab) == [a[0]] + Filter(p, a[1..] + b);
        assert Filter(p, a) == [a[0]] + Filter(p, a[1..]);
      } else {
        assert Filter(p, ab) == Filter(p, a[1..] + b);
        assert Filter(p, a) == Filter(p, a[1..]);
      }
    }
  }

  /**
   * Moving `x` past `h` does not change the filtered list when at most one of
   * the two passes.
   */
  lemma FilterPastHead<T(!new)>(p: T -> bool, h: T, x: T, rest: seq<T>, t: seq<T>)
    requires Filter(p, rest) == Filter(p, [x]) + Filter(p, t)
    requires Filter(p, [x]) == [] || Filter(p, [h]) == []
    ensures Filter(p, [h] + rest) == Filter(p, [x]) + Filter(p, [h] + t)
  {
    FilterAppend(p, [h], rest);
    FilterAppend(p, [h], t);
    if Filter(p, [x]) == [] {
      assert Filter(p, [x]) + Filter(p, t) == Filter(p, t);
      assert Filter(p, [x]) + Filter(p, [h] + t) == Filter(p, [h] + t);
    } else {
      assert Filter(p, [h]) + Filter(p, rest) == Filter(p, rest);
      assert Filter(p, [h]) + Filter(p, t) == Filter(p, t);
    }
  }

  /** Both predicates hold. */
  function Both<T>(p: T -> bool, q: T -> bool): T -> bool {
    (x: T) => p(x) && q(x)
  }

  /** Two filters in a row are one filter by the conjunction. */
  lemma {:induction false} FilterFilter<T(!new)>(p: T -> bool, q: T -> bool, s: seq<T>)
    ensures Filter(q, Filter(p, s)) == Filter(Both(p, q), s)
  {
    if |s| > 0 {
      FilterFilter(p, q, s[1..]);
      if p(s[0]) {
        assert ([s[0]] + Filter(p, s[1..]))[0] == s[0];
        assert ([s[0]] + Filter(p, s[1..]))[1..] == Filter(p, s[1..]);
      }
    }
  }

  /** Predicates that agree on every element filter alike. */
  lemma {:induction false} FilterSame<T(!new)>(p: T -> bool, q: T -> bool, s: seq<T>)
    requires forall x :: x in s ==> p(x) == q(x)
    ensures Filter(p, s) == Filter(q, s)
  {
    if |s| > 0 {
      assert forall x :: x in s[1..] ==> x in s;
      FilterSame(p, q, s[1..]);
    }
  }

  /** Splitting by a predicate and its negation accounts for every element once. */
  lemma {:induction false} FilterComplement<T(!new)>(p: T -> bool, q: T -> bool, s: seq<T>)
    requires forall x :: q(x) == !p(x)
    ensures |Filter(p, s)| + |Filter(q, s)| == |s|
  {
    if |s| > 0 {
      FilterComplement(p, q, s[1..]);
    }
  }
}

=== FILE: sorting.dfy ===
/**
 * The three orders the dashboard offers and `Array.prototype.sort`, which is
 * stable, modelled as insertion sort.
 */
module Sorting {
  import opened Records
  import opened Text
  import opened Seqs

  /** Title A to Z, oldest first, or newest first. */
  datatype SortOrder = Az | Oldest | Recent

  /**
   * The comparator `applyFilters` gives to `sort` returns at most zero for `(a, b)`:
   * `a` may stay in front of `b`. Titles compare by code point, timestamps as numbers.
   */
  predicate Before(order: SortOrder, a: Collection, b: Collection)
    ensures (if order.Az? then a.title == b.title else a.createdAt == b.createdAt) ==> Before(order, a, b)
  {
    match order
    case Az => assert IsPrefix(a.title, a.title); LexLe(a.title, b.title)
    case Oldest => a.createdAt <= b.createdAt
    case Recent => b.createdAt <= a.createdAt
  }

  lemma BeforeTotal(order: SortOrder, a: Collection, b: Collection)
    ensures Before(order, a, b) || Before(order, b, a)
  {
    if order.Az? {
      LexLeTotal(a.title, b.title);
    }
  }

  lemma BeforeTransitive(order: SortOrder, a: Collection, b: Collection, c: Collection)
    requires Before(order, a, b) && Before(order, b, c)
    ensures Before(order, a, c)
  {
    if order.Az? {
      LexLeTransitive(a.title, b.title, c.title);
    }
  }

  /** Every earlier element may precede every later one. */
  predicate Sorted(order: SortOrder, s: seq<Collection>) {
    forall i, j :: 0 <= i < j < |s| ==> Before(order, s[i], s[j])
  }

  lemma SortedCons(order: SortOrder, h: Collection, t: seq<Collection>)
    requires Sorted(order, t)
    requires forall y :: y in t ==> Before(order, h, y)
    ensures Sorted(order, [h] + t)
  {
    var s := [h] + t;
    forall i, j | 0 <= i < j < |s|
      ensures Before(order, s[i], s[j])
    {
      if i == 0 {
        assert s[j] == t[j - 1] && s[j] in t;
      } else {
        assert s[i] == t[i - 1] && s[j] == t[j - 1];
      }
    }
  }

  /** What may precede the head of a sorted list may precede all of it. */
  lemma BeforeHeadBeforeAll(order: SortOrder, x: Collection, s: seq<Collection>)
    requires Sorted(order, s) && |s| > 0 && Before(order, x, s[0])
    ensures forall y :: y in s ==> Before(order, x, y)
  {
    forall y | y in s
      ensures Before(order, x, y)
    {
      var j :| 0 <= j < |s| && s[j] == y;
      if j > 0 {
        BeforeTransitive(order, x, s[0], y);
      }
    }
  }

  /** The head of a sorted list may precede the tail with `x` inserted, when it may precede `x`. */
  lemma HeadBeforeRest(order: SortOrder, x: Collection, s: seq<Collection>, rest: seq<Collection>)
    requires Sorted(order, s) && |s| > 0 && Before(order, s[0], x)
    requires multiset(rest) == multiset(s[1..]) + multiset{x}
    ensures forall y :: y in rest ==> Before(order, s[0], y)
  {
    forall y | y in rest
      ensures Before(order, s[0], y)
    {
      assert y in multiset(rest);
      if y != x {
        assert y in multiset(s[1..]);
        var j :| 0 <= j < |s[1..]| && s[1..][j] == y;
        assert s[j + 1] == y;
      }
    }
  }

  /**
   * Place `x` in front of the first element it may precede. Everything it
   * passes over sorts strictly before it, so elements that tie with `x` stay
   * behind it.
   */
  function Insert(order: SortOrder, x: Collection, s: seq<Collection>): (r: seq<Collection>)
    requires Sorted(order, s)
    ensures Sorted(order, r)
    ensures multiset(r) == multiset(s) + multiset{x}
  {
    if |s| == 0 then [x]
    else if Before(order, x, s[0]) then
      BeforeHeadBeforeAll(order, x, s);
      SortedCons(order, x, s);
      [x] + s
    else
      BeforeTotal(order, x, s[0]);
      assert s == [s[0]] + s[1..];
      var rest := Insert(order, x, s[1..]);
      HeadBeforeRest(order, x, s, rest);
      SortedCons(order, s[0], rest);
      [s[0]] + rest
  }

  /** `Array.prototype.sort` with the order's comparator. */
  function Sort(order: SortOrder, s: seq<Collection>): (r: seq<Collection>)
    ensures Sorted(order, r)
    ensures multiset(r) == multiset(s)
  {
    if |s| == 0 then []
    else
      assert s == [s[0]] + s[1..];
      Insert(order, s[0], Sort(order, s[1..]))
  }

  /** Sorting a list that is already in order changes nothing. */
  lemma {:induction false} SortSorted(order: SortOrder, s: seq<Collection>)
    requires Sorted(order, s)
    ensures Sort(order, s) == s
  {
    if |s| > 0 {
      assert Sorted(order, s[1..]);
      SortSorted(order, s[1..]);
      assert s == [s[0]] + s[1..];
    }
  }

  lemma SortIdempotent(order: SortOrder, s: seq<Collection>)
    ensures Sort(order, Sort(order, s)) == Sort(order, s)
  {
    SortSorted(order, Sort(order, s));
  }

  /** The elements the comparator ties with `k` (it returns zero both ways). */
  function TiesWith(order: SortOrder, k: Collection): Collection -> bool {
    (y: Collection) => Before(order, y, k) && Before(order, k, y)
  }

  lemma TiedInOrder(order: SortOrder, k: Collection, x: Collection, y: Collection)
    ensures TiesWith(order, k)(x) && TiesWith(order, k)(y) ==> Before(order, x, y)
  {
    if TiesWith(order, k)(x) && TiesWith(order, k)(y) {
      BeforeTransitive(order, x, k, y);
    }
  }

  /** `x` sorts strictly after `h`, so `x` and `h` are never both tied with `k`. */
  lemma PassedOverNotBothTied(order: SortOrder, k: Collection, x: Collection, h: Collection)
    requires !Before(order, x, h)
    ensures Filter(TiesWith(order, k), [x]) == [] || Filter(TiesWith(order, k), [h]) == []
  {
    TiedInOrder(order, k, x, h);
  }

  lemma {:induction false} InsertTies(order: SortOrder, k: Collection, x: Collection, s: seq<Collection>)
    requires Sorted(order, s)
    ensures Filter(TiesWith(order, k), Insert(order, x, s))
            == Filter(TiesWith(order, k), [x]) + Filter(TiesWith(order, k), s)
  {
    var tied := TiesWith(order, k);
    if |s| > 0 && !Before(order, x, s[0]) {
      assert Sorted(order, s[1..]);
      var rest := Insert(order, x, s[1..]);
      assert Insert(order, x, s) == [s[0]] + rest;
      InsertTies(order, k, x, s[1..]);
      PassedOverNotBothTied(order, k, x, s[0]);
      assert s == [s[0]] + s[1..];
      FilterPastHead(tied, s[0], x, rest, s[1..]);
    } else if |s| > 0 {
      FilterAppend(tied, [x], s);
    }
  }

  /**
   * Stability: among elements the comparator cannot tell apart, sorting keeps
   * the input's relative order.
   */
  lemma {:induction false} SortStable(order: SortOrder, k: Collection, s: seq<Collection>)
    ensures Filter(TiesWith(order, k), Sort(order, s)) == Filter(TiesWith(order, k), s)
  {
    if |s| > 0 {
      SortStable(order, k, s[1..]);
      InsertTies(order, k, s[0], Sort(order, s[1..]));
      assert s == [s[0]] + s[1..];
      FilterAppend(TiesWith(order, k), [s[0]], s[1..]);
    }
  }
}

=== FILE: text.dfy ===
/**
 * The string primitives the collection pages rely on: `String.prototype.trim`,
 * `toLowerCase`, `includes`, and the ordering used to sort titles.
 */
module Text {

  /** The characters `trim` strips: ECMAScript's WhiteSpace and LineTerminator sets. */
  predicate IsSpace(c: char) {
    || c == '\t' || c == '\n' || c == '\U{000B}' || c == '\U{000C}' || c == '\r'
    || c == ' ' || c == '\U{00A0}' || c == '\U{1680}'
    || ('\U{2000}' <= c <= '\U{200A}')
    || c == '\U{2028}' || c == '\U{2029}' || c == '\U{202F}' || c == '\U{205F}'
    || c == '\U{3000}' || c == '\U{FEFF}'
  }

  predicate AllSpace(s: string) {
    forall k :: 0 <= k < |s| ==> IsSpace(s[k])
  }

  /** A string `trim` leaves alone: empty, or starting and ending with a non-space. */
  predicate IsTrimmed(s: string) {
    s == [] || (!IsSpace(s[0]) && !IsSpace(s[|s| - 1]))
  }

  function TrimStart(s: string): (r: string)
    ensures |r| <= |s| && r == s[|s| - |r|..]
    ensures forall k :: 0 <= k < |s| - |r| ==> IsSpace(s[k])
    ensures r == [] || !IsSpace(r[0])
  {
    if |s| > 0 && IsSpace(s[0]) then TrimStart(s[1..]) else s
  }

  function TrimEnd(s: string): (r: string)
    ensures |r| <= |s| && r == s[..|r|]
    ensures forall k :: |r| <= k < |s| ==> IsSpace(s[k])
    ensures r == [] || !IsSpace(r[|r| - 1])
  {
    if |s| > 0 && IsSpace(s[|s| - 1]) then TrimEnd(s[..|s| - 1]) else s
  }

  lemma TrimBothEnds(s: string)
    ensures var r := TrimEnd(TrimStart(s)); r == [] <==> AllSpace(s)
  {
    var t := TrimStart(s);
    var r := TrimEnd(t);
    var d := |s| - |t|;
    if r != [] {
      assert r[0] == t[0] == s[d];
    }
  }

  /** `String.prototype.trim`: drop the leading and trailing white space. */
  function Trim(s: string): (r: string)
    ensures |r| <= |s|
    ensures r == [] <==> AllSpace(s)
    ensures IsTrimmed(r)
  {
    TrimBothEnds(s);
    var r := TrimEnd(TrimStart(s));
    assert r != [] ==> r[0] == TrimStart(s)[0];
    r
  }

  /** The part `trim` keeps is a contiguous piece of the input, surrounded by white space only. */
  /** A prefix `r` of the suffix `s[i..]`, followed only by white space, sits at `i` in `s`. */
  lemma PrefixOfSuffix(s: string, i: nat, r: string)
    requires i <= |s| && |r| <= |s| - i && r == s[i..][..|r|]
    requires forall k :: |r| <= k < |s| - i ==> IsSpace(s[i..][k])
    ensures s[i..i + |r|] == r
    ensures forall k :: i + |r| <= k < |s| ==> IsSpace(s[k])
  {
    forall k | i + |r| <= k < |s|
      ensures IsSpace(s[k])
    {
      assert s[k] == s[i..][k - i];
    }
  }

  lemma TrimKeepsMiddle(s: string) returns (i: nat)
    ensures i + |Trim(s)| <= |s|
    ensures s[i..i + |Trim(s)|] == Trim(s)
    ensures forall k :: 0 <= k < i ==> IsSpace(s[k])
    ensures forall k :: i + |Trim(s)| <= k < |s| ==> IsSpace(s[k])
  {
    var t := TrimStart(s);
    i := |s| - |t|;
    assert Trim(s) == TrimEnd(t);
    PrefixOfSuffix(s, i, TrimEnd(t));
  }

  /** Trimming a string that has no surrounding white space is the identity. */
  lemma TrimTrimmed(s: string)
    requires IsTrimmed(s)
    ensures Trim(s) == s
  {
    assert TrimStart(s) == s;
  }

  lemma TrimIdempotent(s: string)
    ensures Trim(Trim(s)) == Trim(s)
  {
    TrimTrimmed(Trim(s));
  }

  /** `toLowerCase` on one character; only the ASCII capitals are modelled. */
  function LowerChar(c: char): char {
    if 'A' <= c <= 'Z' then (c as int + 32) as char else c
  }

  /** `toLowerCase`: no ASCII capital survives, and every other character is kept. */
  function Lower(s: string): (r: string)
    ensures |r| == |s|
    ensures forall k {:trigger r[k]} :: 0 <= k < |r| ==> !('A' <= r[k] <= 'Z')
    ensures forall k {:trigger r[k]} :: 0 <= k < |s| && !('A' <= s[k] <= 'Z') ==> r[k] == s[k]
    ensures forall k {:trigger r[k]} :: 0 <= k < |s| && 'A' <= s[k] <= 'Z' ==> 'a' <= r[k] <= 'z'
    ensures forall k {:trigger r[k]} :: 0 <= k < |s| && 'A' <= s[k] <= 'Z' ==> r[k] as int - 'a' as int == s[k] as int - 'A' as int
  {
    seq(|s|, k requires 0 <= k < |s| => LowerChar(s[k]))
  }

  lemma LowerIdempotent(s: string)
    ensures Lower(Lower(s)) == Lower(s)
  {
  }

  /** Lower-casing keeps a character a space exactly when it was one. */
  lemma LowerCharSpace(c: char)
    ensures IsSpace(LowerChar(c)) <==> IsSpace(c)
  {
  }

  /** `TrimStart` drops exactly the leading run of white space. */
  lemma {:induction false} TrimStartDrop(s: string, n: nat)
    requires n <= |s|
    requires forall k :: 0 <= k < n ==> IsSpace(s[k])
    requires n == |s| || !IsSpace(s[n])
    ensures TrimStart(s) == s[n..]
    decreases n
  {
    if n > 0 {
      assert IsSpace(s[0]);
      TrimStartDrop(s[1..], n - 1);
      assert s[1..][n - 1..] == s[n..];
    }
  }

  /** `TrimEnd` drops exactly the trailing run of white space. */
  lemma {:induction false} TrimEndDrop(s: string, n: nat)
    requires n <= |s|
    requires forall k :: n <= k < |s| ==> IsSpace(s[k])
    requires n == 0 || !IsSpace(s[n - 1])
    ensures TrimEnd(s) == s[..n]
    decreases |s| - n
  {
    if n < |s| {
      assert IsSpace(s[|s| - 1]);
      TrimEndDrop(s[..|s| - 1], n);
      assert s[..|s| - 1][..n] == s[..n];
    }
  }

  lemma TrimStartLower(s: string)
    ensures TrimStart(Lower(s)) == Lower(TrimStart(s))
  {
    var t := TrimStart(s);
    var n := |s| - |t|;
    var l := Lower(s);
    forall k | 0 <= k < n
      ensures IsSpace(l[k])
    {
      LowerCharSpace(s[k]);
    }
    if n < |s| {
      assert s[n] == t[0];
      LowerCharSpace(s[n]);
    }
    assert l[n..] == Lower(t);
    TrimStartDrop(l, n);
  }

  lemma TrimEndLower(s: string)
    ensures TrimEnd(Lower(s)) == Lower(TrimEnd(s))
  {
    var t := TrimEnd(s);
    var n := |t|;
    var l := Lower(s);
    forall k | n <= k < |s|
      ensures IsSpace(l[k])
    {
      LowerCharSpace(s[k]);
    }
    if n > 0 {
      assert s[n - 1] == t[n - 1];
      LowerCharSpace(s[n - 1]);
    }
    assert l[..n] == Lower(t);
    TrimEndDrop(l, n);
  }

  /** Lower-casing never turns a space into a non-space or back, so it commutes with `trim`. */
  lemma TrimLowerCommute(s: string)
    ensures Trim(Lower(s)) == Lower(Trim(s))
  {
    TrimStartLower(s);
    TrimEndLower(TrimStart(s));
  }

  predicate IsPrefix(p: string, s: string) {
    |p| <= |s| && s[..|p|] == p
  }

  /** `s.includes(t)`, as a left-to-right scan. */
  predicate Contains(s: string, t: string)
    ensures t == [] ==> Contains(s, t)
    ensures Contains(s, t) ==> |t| <= |s|
    decreases |s|
  {
    IsPrefix(t, s) || (|s| > 0 && Contains(s[1..], t))
  }

  /** `t` occurs in `s` starting at position `i`. */
  predicate OccursAt(s: string, t: string, i: int) {
    0 <= i && i + |t| <= |s| && s[i..i + |t|] == t
  }

  /** The scan finds `t` exactly when `t` occurs somewhere in `s`. */
  lemma {:induction false} ContainsIffOccurs(s: string, t: string)
    ensures Contains(s, t) <==> exists i :: OccursAt(s, t, i)
    decreases |s|
  {
    assert OccursAt(s, t, 0) <==> IsPrefix(t, s);
    if |s| == 0 {
      forall i | OccursAt(s, t, i)
        ensures i == 0
      {
      }
    } else {
      ContainsIffOccurs(s[1..], t);
      forall i | 1 <= i
        ensures OccursAt(s, t, i) <==> OccursAt(s[1..], t, i - 1)
      {
        if i + |t| <= |s| {
          assert s[1..][i - 1..i - 1 + |t|] == s[i..i + |t|];
        }
      }
      if Contains(s[1..], t) {
        var i :| OccursAt(s[1..], t, i);
        assert OccursAt(s, t, i + 1);
      }
    }
  }

  /** Code-point lexicographic order: `a` is a prefix of `b` or is smaller at the first difference. */
  predicate LexLe(a: string, b: string)
    ensures IsPrefix(a, b) ==> LexLe(a, b)
    ensures IsPrefix(b, a) && a != b ==> !LexLe(a, b)
    decreases |a|
  {
    if |a| == 0 then true
    else if |b| == 0 then false
    else if a[0] != b[0] then a[0] < b[0]
    else LexLe(a[1..], b[1..])
  }

  lemma {:induction false} LexLeTotal(a: string, b: string)
    ensures LexLe(a, b) || LexLe(b, a)
    decreases |a|
  {
    if |a| > 0 && |b| > 0 && a[0] == b[0] {
      LexLeTotal(a[1..], b[1..]);
    }
  }

  lemma {:induction false} LexLeTransitive(a: string, b: string, c: string)
    requires LexLe(a, b) && LexLe(b, c)
    ensures LexLe(a, c)
    decreases |a|
  {
    if |a| > 0 && |b| > 0 && |c| > 0 && a[0] == b[0] && b[0] == c[0] {
      LexLeTransitive(a[1..], b[1..], c[1..]);
    }
  }

  lemma {:induction false} LexLeAntisymmetric(a: string, b: string)
    requires LexLe(a, b) && LexLe(b, a)
    ensures a == b
    decreases |a|
  {
    if |a| > 0 {
      LexLeAntisymmetric(a[1..], b[1..]);
      assert a == [a[0]] + a[1..];
      assert b == [b[0]] + b[1..];
    }
  }
}

=== FILE: wrappers.dfy ===
/** Optional values: the model's stand-in for JavaScript's `null` / `undefined`. */
module Wrappers {

  datatype Option<+T> = None | Some(value: T) {

    /** The wrapped value, or `default` when there is none (JavaScript's `x ?? default`). */
    function GetOr(default: T): T {
      match this
      case Some(v) => v
      case None => default
    }
  }
}
